=== FILE: README.md ===
# Up Brasil admin client — verified model of its tenant session, list and form controllers

The Up Brasil admin client is a Next.js application in which a signed-in user
manages the product categories, products and users of the tenants they own.
Beneath its markup, the pages are small sequential state machines over a few
fields and the browser's `localStorage`. This project models those state
machines in Dafny and proves what they promise:

- **Tenant session.** Sign-in stores the owned tenant ids (`user_tenant_ids`)
  and makes the first one active (`active_tenant_id`). The navigation sidebar
  resolves the active tenant on mount: it keeps a stored id that is owned, and
  otherwise falls back to the first owned id and persists it. A user's choice
  overrides it. Navigation highlighting is a string-prefix rule. The dashboard
  and the three list pages load the owned ids and warn when the list is empty.
- **List controller.** The categories, products and tenant-users pages share
  one controller. It fetches the active tenant's list on mount, renders a
  spinner, an error card, an empty notice or a table, and handles a status
  toggle by firing the mutation and reloading the whole page.
- **Form controllers.** The product and category forms create, or edit an
  entity they find by id in the tenant's full list. The tenant-user form needs
  an active tenant. The sign-up form needs none. Each guarded submission ends in
  one of three outcomes: saved (toast and navigation), refused by the service
  (warning, stay) or unreachable (error, stay).

The browser is one `Browser.Window` object. It holds `storage`
(`localStorage` as a `map<string, string>`) and `effects`, the ordered log of
everything a page does outside its own fields: toasts, gateway calls, router
navigation and full reloads. Each page is a class over its React state fields.
Each handler is a method whose `ensures` ties the new fields, the new storage
and the appended effects to pure functions of the old state. The lemmas state
the promised properties of those functions.

Every remote call answers with the envelope `{success, message?, data}` or
throws. The model passes that reply in as a `Gateway.Reply` parameter, so the
handlers are sequential and deterministic. `JSON.parse`/`JSON.stringify`
(`Browser.Json`) and `parseFloat`/`Number.toString` (`ProductForm.Numbers`)
are function-valued parameters. The lemmas that need a property of them
require it (`RoundTrips`, `ShowsFaithfully`).

Some behaviour of the code is easy to mistake for something stricter, and the
model keeps the code's behaviour:

- The code does not check that an explicit tenant choice is an owned id: the
  sidebar's `handleTenantChange` writes any id it is given.
  `TenantSession.ChoiceThenResolve` states what the next resolution then does.
- The list pages do not look at `success`. They decide on `data` alone: a
  non-null `data` is listed even when `success` is false.
- In create mode the product form neither awaits the category fetch nor
  blocks on it. Only the submit-disabled rule keeps the form from submitting
  without categories.
- The sidebar treats a stored or owned `""` as no id at all: an owned `""`
  is never kept, and the first owned id replaces it.
- The tenant-users list falls back to "Erro ao carregar categorias." when the
  service sends no message. The products list's toggle toast says "Excluir
  categoria". Both texts are the code's, and the model keeps them.

## Model

| member | source | states |
|---|---|---|
| Gateway.MessageOr | app/User/SignIn/page.tsx:63 | `message \|\| fallback`: the server's message when it is a non-empty string, otherwise the fallback; never empty when the fallback is not |
| Gateway.NewUser.With | app/User/Create/page.tsx:28-31 | the named field takes the typed value and every other field keeps its own |
| Gateway.Classify | app/products/create/page.tsx:221-241 | a mutation is saved iff the envelope says `success`, unreachable iff the call threw, and otherwise refused with `message` or the fallback; the category, tenant-user and sign-up submissions classify the same way (app/categories/create/page.tsx:145-168, app/User/tenant/create/page.tsx:85-102, app/User/Create/page.tsx:41-64) |
| Browser.Window.GetItem | components/template/Sidebar.tsx:30 | `getItem` yields the stored value, and `null` exactly when the key is absent |
| Browser.Window.SetItem | components/template/Sidebar.tsx:37 | `setItem` writes exactly that key, which then reads back as the value; no other key changes |
| Catalog.FirstIndexOf | app/products/create/page.tsx:108 | `find` stops at the first item with the requested id; there is none iff no item has that id |
| Catalog.Find | app/categories/create/page.tsx:62 | the found item is the first in the list with the id; nothing is found iff no item has it |
| Catalog.SearchList | app/categories/create/page.tsx:59-75 | fetch-then-search: found only in a non-null `data`, and then it is the first item there with the id; not found iff `data` is present without that id; a null `data` carries the message; a throw is reported as such |
| TenantSession.Resolve | components/template/Sidebar.tsx:30-38 | a selection is made iff there are owned ids; a truthy owned stored id is kept without a write; a kept id is always that truthy stored id, so any other case (absent, `""`, not owned) selects and persists the first owned id; the chosen id is always owned |
| TenantSession.ResolutionIsStored | components/template/Sidebar.tsx:32-38 | with owned ids, the active id is owned and is the value storage holds afterwards |
| TenantSession.ResolveIdempotent | components/template/Sidebar.tsx:29-39 | re-running the resolution on the storage it produced selects the same id, leaves storage unchanged, and writes nothing when that id is non-empty |
| TenantSession.ChoiceThenResolve | components/template/Sidebar.tsx:41-44 | after a user's choice, the next resolution keeps it if it is a non-empty owned id; a `""` or unowned choice is replaced by the first owned id, which is persisted; with no owned ids nothing is selected |
| TenantSession.Sidebar.constructor | components/template/Sidebar.tsx:25-27 | the sidebar starts with no active tenant |
| TenantSession.Sidebar.ResolveActiveTenant | components/template/Sidebar.tsx:29-39 | the effect sets the active id and storage as `Resolve` decides; with owned ids the active id is owned and stored; with none, neither changes; a non-empty first id leaves the selector enabled |
| TenantSession.Sidebar.HandleTenantChange | components/template/Sidebar.tsx:41-44 | the choice becomes active and is written to `active_tenant_id`, with no membership check |
| TenantSession.StartsWith | components/template/Sidebar.tsx:82 | `startsWith` holds iff the prefix is a prefix of the path |
| TenantSession.IsNavActive | components/template/Sidebar.tsx:80-82 | an exact match is always active; other items are active iff their href prefixes the path; the dashboard only on its own path |
| TenantSession.AtMostOneNavItemActive | components/template/Sidebar.tsx:46-50 | whatever the path, at most one of the three navigation items is highlighted |
| TenantSession.ReadOwnedIds | app/Home/page.tsx:15-18 | an absent or empty value reads as not stored; a value the parser rejects as unparsable; anything else as the parsed list |
| TenantSession.LoadOwnedIds | app/Home/page.tsx:14-29 | a parsed list replaces the owned ids and raises the no-tenant warning iff it is empty; an absent or unparsable value changes nothing and warns of nothing |
| Home.ActiveTenantLabel | app/Home/page.tsx:40 | the stored active id when truthy, otherwise "Nenhum Selecionado"; never empty |
| Home.HomePage.constructor | app/Home/page.tsx:11 | the dashboard starts with no owned tenant ids |
| Home.HomePage.Mount | app/Home/page.tsx:14-29 | the page's owned ids and warnings follow `ReadOwnedIds` exactly as in the shared load |
| Home.HomePage.Greeting | app/Home/page.tsx:40 | the dashboard shows the stored active id when truthy, otherwise "Nenhum Selecionado"; never empty |
| SignIn.Credentials.With | app/User/SignIn/page.tsx:31-34 | the named credential takes the typed value and the other keeps its own |
| SignIn.SignInPage.constructor | app/User/SignIn/page.tsx:25-29 | the sign-in page starts with empty credentials, not loading |
| SignIn.LoginOutcomeOf | app/User/SignIn/page.tsx:41-79 | logged in iff `success` and a non-null `data`; a refusal shows `message` or "E-mail ou senha inválidos."; a throw shows the error body's `Message` or the network default |
| SignIn.SessionWrites | app/User/SignIn/page.tsx:44-54 | only a login writes: the serialised owned ids, and the first id as active when there is one (an empty list leaves the old active id); no other key changes |
| SignIn.LoginEffects | app/User/SignIn/page.tsx:56-79 | a successful login shows one success toast and then navigates to `/home`, the only navigation any outcome makes; no outcome makes a further call; a refusal shows exactly one warning and a failure exactly one error, each carrying the outcome's message |
| SignIn.SignInPage.HandleChange | app/User/SignIn/page.tsx:31-34 | typing updates the named credential only |
| SignIn.SignInPage.HandleSubmit | app/User/SignIn/page.tsx:36-85 | one sign-in call with the typed credentials; storage becomes `SessionWrites`; the outcome's toast and navigation follow; `loading` is false on every path |
| SignIn.SignInThenSidebar | app/User/SignIn/page.tsx:44-54 | after a successful sign-in the pages read back exactly the owned ids, and the sidebar keeps the first of them active without writing |
| ListPages.LoadFallback | app/User/tenant/page.tsx:84 | each list page has a non-empty default error text |
| ListPages.LoadOutcomeOf | app/categories/page.tsx:56-89 | unreadable storage or a missing tenant end the fetch before any call; a non-null `data` (even `[]`, whatever `success` says) is the list; a null `data` gives `message` or the default; a throw gives the connectivity error |
| ListPages.ToggleNotice | app/categories/page.tsx:103 | a toggle's notice is an info toast with no description whose title ends with the toggled id and ")" |
| ListPages.ErrorAfter | app/categories/page.tsx:62-89 | the page error is cleared exactly when a list came back; unreadable storage sets the storage text, a missing tenant "ID do Tenant não encontrado. Faça login novamente.", a throw the connectivity text, and a refusal its `message` or the default |
| ListPages.FetchEffects | app/categories/page.tsx:69-79 | the list call for the stored tenant is made only when a tenant was read, so a missing tenant makes zero gateway calls |
| ListPages.Render | app/categories/page.tsx:112-171 | render priority is spinner, then error card, then empty notice, then table; an empty list is never an error; the error card shows the page's error |
| ListPages.ToggleEffects | app/categories/page.tsx:102-106 | a toggle makes exactly one call, the status change of that id, and ends with a full reload |
| ListPages.ToggleThenRefetch | app/categories/page.tsx:54-106 | a toggle followed by the reloaded page's fetch issues the status change and then the list call for the stored tenant, whatever either answered |
| ListPages.ListPage.constructor | app/categories/page.tsx:32-35 | a mounted or reloaded page starts loading, with no error, no items and no owned ids |
| ListPages.ListPage.LoadOwnedIdsEffect | app/products/page.tsx:37-52 | the owned-ids effect follows the shared load: replaced by a parsed list, warned on an empty one, unchanged otherwise |
| ListPages.ListPage.Fetch | app/categories/page.tsx:54-96 | the fetch sets items, error and effects as `LoadOutcomeOf` decides; `isLoading` is false on every path; a loaded `[]` renders the empty notice, a non-empty list the table, any failure the error card; the products page (app/products/page.tsx:54-96) and the tenant-users page (app/User/tenant/page.tsx:54-96) run the same lifecycle with their own list call and default text |
| ListPages.ListPage.ChangeStatus | app/categories/page.tsx:102-106 | a toggle appends its notice, the page's status change call and a reload, without awaiting or inspecting the call; the same holds for `changeStatusProduct` (app/products/page.tsx:106-110) and `changeStatusTenantUser` (app/User/tenant/page.tsx:102-106) |
| ListPages.ListPage.Remount | app/categories/page.tsx:105 | the reload restarts the page's state as a fresh mount |
| Forms.ModeOf | app/products/create/page.tsx:58-59 | edit mode iff the route carries a non-empty id, which is the edited id |
| Forms.Report | app/products/create/page.tsx:221-241 | success gives the page's toast and navigation; a refusal gives exactly one warning with the message; a throw exactly one error; neither navigates nor calls |
| ProductForm.ProductFormData.With | app/products/create/page.tsx:151-157 | the named input takes the typed value; every other field, the id, the category and the perishable flag keep theirs |
| ProductForm.Preselected | app/products/create/page.tsx:81-89 | in create mode a non-empty category list preselects its first category; an edit, or an empty list, never touches the form |
| ProductForm.CategoriesError | app/products/create/page.tsx:90-95 | an answered category fetch without data sets `message` or "Erro ao carregar lista de categorias."; a thrown one sets "Erro ao carregar dados de categorias."; never empty |
| ProductForm.LookupError | app/products/create/page.tsx:107-127 | the edit lookup sets no error iff the product was found; not found gives "Produto não encontrado na lista."; a null `data` gives `message` or "Erro ao carregar lista de produtos."; a throw "Erro ao carregar dados do produto." |
| ProductForm.SubmitGuard | app/products/create/page.tsx:172-190 | a submission proceeds iff a tenant is stored and the price parses to a number ≥ 0 (zero accepted); the tenant check comes first |
| ProductForm.SaveRequest | app/products/create/page.tsx:196-219 | update iff edit mode with a truthy form id, create otherwise; the payload carries the form's fields, the parsed price and the tenant id |
| ProductForm.SavedEffects | app/products/create/page.tsx:221-230 | a successful save shows one success toast, titled as an update exactly in edit mode, and then navigates to `/products` and nowhere else |
| ProductForm.FormFromProduct | app/products/create/page.tsx:111-119 | a found product fills the form under its own id, category, name, SKU and flag; the description is "" exactly when the product has none (or an empty one); the price text parses back to the price whenever `toString` is faithful |
| ProductForm.SubmitDisabled | app/products/create/page.tsx:426-430 | the button is enabled only when not saving, with category options, and with a chosen category; any of the three missing disables it |
| ProductForm.EditRoundTrip | app/products/create/page.tsx:111-119 | loading a product into the form and submitting it unchanged passes the guard and sends an update of that very product |
| ProductForm.NoCategoriesNoSubmit | app/products/create/page.tsx:426-430 | without category options the submit button is disabled, whatever else holds |
| ProductForm.ProductFormPage.constructor | app/products/create/page.tsx:54-72 | empty form, no categories; `initialLoading` iff edit mode |
| ProductForm.ProductFormPage.FetchCategories | app/products/create/page.tsx:74-98 | one category call; data becomes the options, with the create-mode preselection; otherwise the error is set and options and form are kept |
| ProductForm.ProductFormPage.FetchProductData | app/products/create/page.tsx:100-133 | the category call is completed before the product call; a category failure does not stop the lookup; a found product fills the form, otherwise the lookup error is set; `initialLoading` ends false |
| ProductForm.ProductFormPage.Mount | app/products/create/page.tsx:135-149 | without a tenant: the error, no call and no form change; an edit fetches categories then products, and leaves categories, form and error exactly as `FetchProductData` does; a creation fetches categories and leaves them, the preselected form and the error as `FetchCategories` does; an edit's category never comes from the options; a created form with options and a tenant is submittable |
| ProductForm.ProductFormPage.HandleChange | app/products/create/page.tsx:151-157 | typing updates the named field only |
| ProductForm.ProductFormPage.HandleCheckboxChange | app/products/create/page.tsx:159-161 | the checkbox sets `perishable` only |
| ProductForm.ProductFormPage.HandleSelectChange | app/products/create/page.tsx:163-165 | the select sets the category only |
| ProductForm.ProductFormPage.Submit | app/products/create/page.tsx:167-247 | no tenant: an error toast and no call; a bad price: a warning and no call; otherwise one create or update call and its reported outcome; `loading` false afterwards |
| CategoryForm.CategoryFormData.With | app/categories/create/page.tsx:102-108 | the named input takes the typed value; the other field and the id keep theirs |
| CategoryForm.SearchError | app/categories/create/page.tsx:61-77 | the edit lookup sets no error iff the category was found; not found gives "Categoria não encontrada na lista."; a null `data` gives `message` or "Erro ao carregar lista de categorias."; a throw "Erro ao carregar dados da categoria." |
| CategoryForm.SaveRequest | app/categories/create/page.tsx:129-143 | update iff edit mode with a truthy form id, carrying only id, name and description; create otherwise, carrying the tenant id too |
| CategoryForm.SavedEffects | app/categories/create/page.tsx:145-154 | a successful save shows one success toast, titled as an update exactly in edit mode, and then navigates to `/categories` and nowhere else |
| CategoryForm.FormFromCategory | app/categories/create/page.tsx:65-69 | a found category fills the form under its own id and name; the description is "" exactly when the category has none (or an empty one) |
| CategoryForm.EditRoundTrip | app/categories/create/page.tsx:129-135 | a found category submitted unchanged is updated under its own id with its own name and description |
| CategoryForm.CategoryFormPage.constructor | app/categories/create/page.tsx:43-52 | empty form; `initialLoading` iff edit mode |
| CategoryForm.CategoryFormPage.FetchAndFilter | app/categories/create/page.tsx:54-83 | one category call; a found category fills the form, otherwise the lookup error is set; `initialLoading` ends false |
| CategoryForm.CategoryFormPage.Mount | app/categories/create/page.tsx:85-100 | creation reads nothing and calls nothing; an edit without a tenant sets the error and makes no call; an edit with one fetches and searches |
| CategoryForm.CategoryFormPage.HandleChange | app/categories/create/page.tsx:102-108 | typing updates the named field only |
| CategoryForm.CategoryFormPage.Submit | app/categories/create/page.tsx:110-171 | no tenant: an error toast and no call; otherwise one create or update call and its reported outcome; `loading` false afterwards |
| TenantUserForm.SaveRequest | app/User/tenant/create/page.tsx:77-80 | the request is the form's fields plus the tenant id |
| TenantUserForm.TenantUserFormPage.constructor | app/User/tenant/create/page.tsx:29-38 | blank form, not loading, no tenant, no error |
| TenantUserForm.TenantUserFormPage.SubmitBlocked | app/User/tenant/create/page.tsx:68 | a submission goes through when a tenant is stored and there is no page error; any page error blocks it; one that goes through has a non-empty tenant id to send |
| TenantUserForm.TenantUserFormPage.SubmitDisabled | app/User/tenant/create/page.tsx:239 | the button is disabled exactly when saving or without a tenant id; without a page error it is disabled exactly when a submission would be blocked |
| TenantUserForm.TenantUserFormPage.Mount | app/User/tenant/create/page.tsx:40-57 | a truthy stored tenant is kept; a missing one sets the error and a toast; a storage exception sets the storage error; on a fresh page the disabled rule then agrees with the submit guard |
| TenantUserForm.TenantUserFormPage.HandleChange | app/User/tenant/create/page.tsx:59-62 | typing updates the named field only |
| TenantUserForm.TenantUserFormPage.Submit | app/User/tenant/create/page.tsx:64-108 | without a tenant, or with an error: one error toast, no call, `loading` unchanged; otherwise one creation call and its reported outcome, ending with `/user/tenant` on success and `loading` false |
| SignUp.FormAfter | app/User/Create/page.tsx:41-58 | the form is cleared to five empty fields iff the account was created, and otherwise kept as typed |
| SignUp.SignUpPage.constructor | app/User/Create/page.tsx:19-26 | blank form, not loading |
| SignUp.SignUpPage.HandleChange | app/User/Create/page.tsx:28-31 | typing updates the named field only |
| SignUp.SignUpPage.Submit | app/User/Create/page.tsx:33-70 | always one `createUser` call with the form as typed; the outcome's toast; the form reset only on success; `loading` false on every path |
| Scenarios.SignInThenCategories | app/categories/page.tsx:54-106 | sign-in with tenants `t1`, `t2` makes `t1` active; an empty category list renders the empty notice; toggling `c1` calls its status change and then refetches `t1`'s categories |

## Left out

- Async interleaving, unmount races and cancellation: each handler runs as one sequential step. The un-awaited category fetch of a product creation (app/products/create/page.tsx:146) is modelled as if it completed before `initialLoading` is cleared. The fire-and-forget status call before `window.location.reload()` is an effect that precedes the reload.
- `JSON.parse`, `JSON.stringify`, `parseFloat` and `Number.prototype.toString` are abstract function parameters. A stored value that parses to something other than an array of strings is not modelled.
- Floating-point prices: a price is a `real`, and NaN is the parser's `None`.
- Storage exceptions are modelled only where the code catches them: the list pages' tenant read and the tenant-user form's mount. Elsewhere a throwing `localStorage` is not modelled.
- The HTTP verbs, paths and axios configuration of the request helpers under `core/request/` are not modelled; a call is identified by its `Gateway.Request` value. `deleteProduct` is never called by the pages and is not modelled.
- The sign-in error's distinction between axios and other errors: a non-axios throw is a `Thrown` reply without a message.
- Markup, styling, icons, `console.error`, and the formatting of dates with `toLocaleString` on the products list.
- Plain navigation handlers (the add and edit buttons, the "try again" and "back" buttons) only call the router with a fixed path and are not modelled.
- The error screen of the tenant-user form (app/User/tenant/create/page.tsx:110-120) is a rendering of `error` and is not modelled.
- `localStorage` shared across tabs: there is one `storage` map.
- TenantSession.Sidebar.SelectorDisabled: stated only through `ResolveActiveTenant`'s promise that a non-empty first id leaves the selector enabled. With an empty first id the code disables the selector, and the model agrees.
- TenantSession.ResolveIdempotent: states "no write on the second run" only when the selected id is non-empty, because the code treats a stored "" as absent and rewrites it.

=== FILE: browser.dfy ===
/**
 * The browser environment every page shares: `localStorage` as a map from key
 * to string, and one ordered log of what the pages make happen outside their
 * own state (toasts, gateway calls, router navigation, full page reloads).
 */
module Browser {
  import opened Wrappers
  import opened Gateway

  /** The storage key of the active tenant id. */
  const ActiveTenantKey := "active_tenant_id"
  /** The storage key of the serialised list of owned tenant ids. */
  const TenantIdsKey := "user_tenant_ids"

  /** `localStorage.getItem(key)`: null when the key was never written. */
  function Lookup(entries: map<string, string>, key: string): Option<string> {
    if key in entries then Some(entries[key]) else None
  }

  datatype Level = Success | Info | Warning | Error

  datatype Effect =
    | Notify(level: Level, title: string, description: string)  // a toast
    | Call(request: Request)                                     // a gateway call
    | Navigate(path: string)                                     // router.push
    | Reload                                                     // window.location.reload()

  /** The requests among a log of effects, in order. */
  function Calls(effects: seq<Effect>): (r: seq<Request>)
    ensures forall q :: q in r <==> Call(q) in effects
  {
    if effects == [] then []
    else (if effects[0].Call? then [effects[0].request] else []) + Calls(effects[1..])
  }

  lemma {:induction false} CallsAppend(a: seq<Effect>, b: seq<Effect>)
    ensures Calls(a + b) == Calls(a) + Calls(b)
  {
    if a == [] {
      assert a + b == b;
    } else {
      var head := if a[0].Call? then [a[0].request] else [];
      assert (a + b)[0] == a[0] && (a + b)[1..] == a[1..] + b;
      assert Calls(a + b) == head + Calls(a[1..] + b);
      CallsAppend(a[1..], b);
      assert Calls(a) == head + Calls(a[1..]);
    }
  }

  /** The generic transport-failure toast of the product, category, tenant-user and sign-up forms. */
  const ConnectionErrorTitle := "Erro de Conexão."
  const ConnectionErrorText := "Não foi possível conectar com a API ou houve um erro inesperado."

  /** The warning the dashboard and the three list pages raise when the owned tenant list is empty. */
  const NoTenantWarning := Notify(Warning, "Nenhum Tenant encontrado.", "Sua conta pode não ter acessos configurados.")

  /**
   * `JSON.parse` and `JSON.stringify` on lists of tenant ids; a parse that
   * throws is `None`.
   */
  datatype Json = Json(parse: string -> Option<seq<string>>, stringify: seq<string> -> string)

  /**
   * What JSON guarantees for a list of strings: its text is never empty (it is
   * at least `[]`) and parsing it gives the list back.
   */
  ghost predicate RoundTrips(json: Json) {
    forall ids :: json.stringify(ids) != "" && json.parse(json.stringify(ids)) == Some(ids)
  }

  class Window {
    var storage: map<string, string>
    var effects: seq<Effect>

    constructor (storage: map<string, string>)
      ensures this.storage == storage && effects == []
    {
      this.storage := storage;
      effects := [];
    }

    method GetItem(key: string) returns (v: Option<string>)
      ensures v == Lookup(storage, key)
      ensures v.Some? <==> key in storage
    {
      v := if key in storage then Some(storage[key]) else None;
    }

    method SetItem(key: string, value: string)
      modifies this`storage
      ensures storage == old(storage)[key := value]
      ensures Lookup(storage, key) == Some(value)
    {
      storage := storage[key := value];
    }

    method Emit(e: Effect)
      modifies this`effects
      ensures effects == old(effects) + [e]
    {
      effects := effects + [e];
    }
  }
}

=== FILE: catalog.dfy ===
/**
 * The tenant-scoped records the list endpoints return, and the client-side
 * lookup by id that edit forms use in place of a per-id endpoint.
 */
module Catalog {
  import opened Wrappers
  import opened Gateway

  datatype Category = Category(id: string, createdAt: string, active: bool, name: string, description: Option<string>)

  datatype Product = Product(
    id: string, createdAt: string, active: bool, categoryId: string, name: string,
    description: Option<string>, sku: string, price: real, perishable: bool)

  datatype TenantUser = TenantUser(
    id: string, createdAt: string, active: bool, userEmail: string,
    userName: string, userDocument: string, tenantDescription: string)

  /**
   * The position `Array.prototype.find` stops at: the first item whose id is
   * `id`, or none when no item has that id.
   */
  function FirstIndexOf<T>(items: seq<T>, id: string, idOf: T -> string): (r: Option<nat>)
    ensures r.Some? ==> r.value < |items| && idOf(items[r.value]) == id
    ensures r.Some? ==> forall j :: 0 <= j < r.value ==> idOf(items[j]) != id
    ensures r.None? <==> forall j :: 0 <= j < |items| ==> idOf(items[j]) != id
  {
    if items == [] then None
    else if idOf(items[0]) == id then Some(0)
    else match FirstIndexOf(items[1..], id, idOf)
      case None => None
      case Some(k) => Some(k + 1)
  }

  /** `items.find(x => x.id === id)`: the first item with that id. */
  function Find<T>(items: seq<T>, id: string, idOf: T -> string): (r: Option<T>)
    ensures r.Some? ==> r.value in items && idOf(r.value) == id
    ensures r.Some? ==> exists k :: 0 <= k < |items| && items[k] == r.value &&
                                    forall j :: 0 <= j < k ==> idOf(items[j]) != id
    ensures r.None? <==> forall x :: x in items ==> idOf(x) != id
  {
    match FirstIndexOf(items, id, idOf)
    case None => None
    case Some(k) => Some(items[k])
  }

  /** The outcome of an edit form's lookup: fetch the whole tenant list, then search it. */
  datatype Search<T> = Found(item: T) | NotFound | ListRefused(message: Option<string>) | ListUnreachable

  /**
   * Fetches-then-searches: a list answered with non-null data is searched for
   * `id`; a null `data` carries the server's message (whatever `success` says);
   * a thrown call is reported as such.
   */
  function SearchList<T>(reply: Reply<seq<T>>, id: string, idOf: T -> string): (r: Search<T>)
    ensures r.Found? ==> reply.Answered? && reply.envelope.data.Some?
    ensures r.Found? ==> r.item in reply.envelope.data.value && idOf(r.item) == id
    ensures r.Found? ==> Find(reply.envelope.data.value, id, idOf) == Some(r.item)
    ensures r.NotFound? <==> reply.Answered? && reply.envelope.data.Some? &&
                              forall x :: x in reply.envelope.data.value ==> idOf(x) != id
    ensures r.ListRefused? <==> reply.Answered? && reply.envelope.data.None?
    ensures r.ListRefused? ==> r.message == reply.envelope.message
    ensures r.ListUnreachable? <==> reply.Thrown?
  {
    match reply
    case Thrown(_) => ListUnreachable
    case Answered(env) =>
      match env.data
      case None => ListRefused(env.message)
      case Some(items) =>
        match Find(items, id, idOf)
        case Some(x) => Found(x)
        case None => NotFound
  }
}

=== FILE: category_form.dfy ===
/**
 * The category form (create, and edit through `/categories/edit/{id}`): an
 * edited category is found in the tenant's full category list; the submission
 * updates (id, name, description) or creates (with the tenant id).
 */
module CategoryForm {
  import opened Wrappers
  import opened Gateway
  import opened Browser
  import opened Catalog
  import opened Forms

  datatype CategoryField = NameField | DescriptionField

  datatype CategoryFormData = CategoryFormData(id: Option<string>, name: string, description: string) {
    function Get(f: CategoryField): string {
      match f
      case NameField => name
      case DescriptionField => description
    }

    /** `handleChange`: the named input takes the typed value; the rest of the form keeps its own. */
    function With(f: CategoryField, value: string): (r: CategoryFormData)
      ensures r.Get(f) == value
      ensures forall g :: g != f ==> r.Get(g) == Get(g)
      ensures r.id == id
    {
      match f
      case NameField => this.(name := value)
      case DescriptionField => this.(description := value)
    }
  }

  const EmptyForm := CategoryFormData(None, "", "")

  /** A found category fills the form, a missing description as "". */
  function FormFromCategory(c: Category): (r: CategoryFormData)
    ensures r.id == Some(c.id) && r.Get(NameField) == c.name
    ensures r.description == "" <==> c.description.None? || c.description == Some("")
    ensures r.description != "" ==> c.description == Some(r.description)
  {
    CategoryFormData(Some(c.id), c.name, c.description.GetOr(""))
  }

  const TenantMissingText := "ID do Tenant não encontrado. Impossível carregar dados."
  const CategoryNotFound := "Categoria não encontrada na lista."
  const ListFallback := "Erro ao carregar lista de categorias."
  const ListUnreachableText := "Erro ao carregar dados da categoria."

  /** The error an edit lookup sets; none when the category was found. */
  function SearchError(l: Search<Category>): (r: Option<string>)
    ensures r.None? <==> l.Found?
    ensures r.Some? ==> r.value != ""
    ensures l.NotFound? ==> r == Some(CategoryNotFound)
    ensures l.ListRefused? ==> r == Some(MessageOr(l.message, ListFallback))
    ensures l.ListUnreachable? ==> r == Some(ListUnreachableText)
  {
    match l
    case Found(_) => None
    case NotFound => Some(CategoryNotFound)
    case ListRefused(m) => Some(MessageOr(m, ListFallback))
    case ListUnreachable => Some(ListUnreachableText)
  }

  /**
   * The dispatched request: an update exactly in edit mode with a (truthy)
   * form id, carrying id, name and description only; otherwise a creation,
   * which also carries the tenant id.
   */
  function SaveRequest(mode: Mode, form: CategoryFormData, tenantId: string): (req: Request)
    ensures req.UpdateCategory? <==> mode.Edit? && Present(form.id)
    ensures req.CreateCategory? <==> !(mode.Edit? && Present(form.id))
    ensures req.UpdateCategory? ==> req == UpdateCategory(form.id.value, form.name, form.description)
    ensures req.CreateCategory? ==> req == CreateCategory(tenantId, form.name, form.description)
  {
    if mode.Edit? && Present(form.id) then UpdateCategory(form.id.value, form.name, form.description)
    else CreateCategory(tenantId, form.name, form.description)
  }

  /** The effects of a successful save: a success toast naming the category, then the category list. */
  function SavedEffects(mode: Mode, name: string): (r: seq<Effect>)
    ensures |r| == 2 && r[1] == Navigate("/categories")
    ensures r[0].Notify? && r[0].level == Success
    ensures r[0].title == "Categoria atualizada com sucesso!" <==> mode.Edit?
    ensures forall p :: Navigate(p) in r ==> p == "/categories"
  {
    [Notify(Success, if mode.Edit? then "Categoria atualizada com sucesso!" else "Categoria cadastrada com sucesso!",
            "Categoria '" + name + "' salva."),
     Navigate("/categories")]
  }

  /** Editing a category and submitting it unchanged sends an update of that very category. */
  lemma EditRoundTrip(c: Category, tenantId: string)
    requires c.id != ""
    ensures SaveRequest(Edit(c.id), FormFromCategory(c), tenantId) == UpdateCategory(c.id, c.name, c.description.GetOr(""))
  {
  }

  class CategoryFormPage {
    const window: Window
    const mode: Mode
    var form: CategoryFormData
    var loading: bool
    var initialLoading: bool
    var error: Option<string>

    constructor (window: Window, initialCategoryId: Option<string>)
      ensures this.window == window && mode == ModeOf(initialCategoryId)
      ensures form == EmptyForm && !loading && error == None && initialLoading == mode.Edit?
    {
      this.window := window;
      mode := ModeOf(initialCategoryId);
      form := EmptyForm;
      loading := false;
      initialLoading := Present(initialCategoryId);
      error := None;
    }

    /** `fetchAndFilterCategories`: fetch the tenant's categories, then search them for `id`. */
    method FetchAndFilter(id: string, tenantId: string, reply: Reply<seq<Category>>)
      modifies this`form, this`error, this`initialLoading, window`effects
      ensures window.effects == old(window.effects) + [Call(GetCategories(tenantId))]
      ensures !initialLoading
      ensures var l := SearchList(reply, id, (c: Category) => c.id);
              && form == (if l.Found? then FormFromCategory(l.item) else old(form))
              && error == (if l.Found? then old(error) else SearchError(l))
    {
      initialLoading := true;
      window.Emit(Call(GetCategories(tenantId)));
      match reply {
        case Answered(response) =>
          if response.data.Some? {
            var foundCategory := Find(response.data.value, id, (c: Category) => c.id);
            if foundCategory.Some? {
              var c := foundCategory.value;
              form := CategoryFormData(Some(c.id), c.name, c.description.GetOr(""));
            } else {
              error := Some(CategoryNotFound);
            }
          } else {
            error := Some(MessageOr(response.message, ListFallback));
          }
        case Thrown(_) =>
          error := Some(ListUnreachableText);
      }
      initialLoading := false;
    }

    /** The mount effect: creation reads nothing; an edit needs a stored tenant before it fetches. */
    method Mount(reply: Reply<seq<Category>>)
      modifies this`form, this`error, this`initialLoading, window`effects
      ensures !initialLoading
      ensures mode.Create? ==> form == old(form) && error == old(error) && window.effects == old(window.effects)
      ensures var stored := Lookup(window.storage, ActiveTenantKey);
              && (mode.Edit? && !Present(stored) ==>
                    error == Some(TenantMissingText) && form == old(form) && window.effects == old(window.effects))
              && (mode.Edit? && Present(stored) ==>
                    window.effects == old(window.effects) + [Call(GetCategories(stored.value))] &&
                    var l := SearchList(reply, mode.id, (c: Category) => c.id);
                    form == (if l.Found? then FormFromCategory(l.item) else old(form)) &&
                    error == (if l.Found? then old(error) else SearchError(l)))
    {
      if mode.Edit? {
        var tenantId := window.GetItem(ActiveTenantKey);
        if !Present(tenantId) {
          error := Some(TenantMissingText);
          initialLoading := false;
          return;
        }
        FetchAndFilter(mode.id, tenantId.value, reply);
      } else {
        initialLoading := false;
      }
    }

    method HandleChange(f: CategoryField, value: string)
      modifies this`form
      ensures form == old(form).With(f, value)
    {
      form := form.With(f, value);
    }

    /** `handleSubmit`: no call without a tenant; otherwise one create or update and its outcome. */
    method Submit(reply: Reply<bool>)
      modifies this`loading, window`effects
      ensures !loading
      ensures var stored := Lookup(window.storage, ActiveTenantKey);
              window.effects == old(window.effects) +
                if !Present(stored) then [Notify(Error, "Erro de Autenticação.", "ID do Tenant não encontrado.")]
                else [Call(SaveRequest(mode, form, stored.value))] +
                     Report(Classify(reply, CheckDataText), SavedEffects(mode, form.name), SaveFailedTitle)
    {
      loading := true;
      var tenantId := window.GetItem(ActiveTenantKey);
      if !Present(tenantId) {
        window.Emit(Notify(Error, "Erro de Autenticação.", "ID do Tenant não encontrado."));
        loading := false;
        return;
      }
      window.Emit(Call(SaveRequest(mode, form, tenantId.value)));
      match reply {
        case Answered(result) =>
          if result.success {
            window.Emit(Notify(Success, if mode.Edit? then "Categoria atualizada com sucesso!" else "Categoria cadastrada com sucesso!",
                               "Categoria '" + form.name + "' salva."));
            window.Emit(Navigate("/categories"));
          } else {
            window.Emit(Notify(Warning, SaveFailedTitle, MessageOr(result.message, CheckDataText)));
          }
        case Thrown(_) =>
          window.Emit(Notify(Error, ConnectionErrorTitle, ConnectionErrorText));
      }
      loading := false;
    }
  }
}

=== FILE: forms.dfy ===
/** What the form controllers share: their mode and how a submission's outcome is reported. */
module Forms {
  import opened Wrappers
  import opened Gateway
  import opened Browser

  /** A form page edits the entity whose id its route carries, or creates a new one. */
  datatype Mode = Create | Edit(id: string)

  /** `isEditMode = !!initialId`: an absent or empty id means creation. */
  function ModeOf(initialId: Option<string>): (m: Mode)
    ensures m.Edit? <==> Present(initialId)
    ensures m.Edit? ==> m.id == initialId.value && m.id != ""
  {
    if Present(initialId) then Edit(initialId.value) else Create
  }

  const CheckDataText := "Verifique os dados e tente novamente."
  const SaveFailedTitle := "Falha ao salvar."
  const RegisterFailedTitle := "Falha no cadastro."

  /**
   * The effects that end a dispatched submission: `onSaved` (a success toast
   * and, for most forms, a navigation) on success, otherwise exactly one toast,
   * a warning with the server's message or an error; nothing else is called.
   */
  function Report(o: Outcome, onSaved: seq<Effect>, refusedTitle: string): (r: seq<Effect>)
    ensures o.Saved? ==> r == onSaved
    ensures !o.Saved? ==> |r| == 1 && r[0].Notify? && Calls(r) == []
    ensures o.Refused? ==> r[0].level == Warning && r[0].description == o.message
    ensures o.Unreachable? ==> r[0].level == Error
    ensures !o.Saved? ==> forall p :: Navigate(p) !in r
  {
    match o
    case Saved => onSaved
    case Refused(m) =>
      var r := [Notify(Warning, refusedTitle, m)];
      assert Calls(r[1..]) == [];
      r
    case Unreachable =>
      var r := [Notify(Error, ConnectionErrorTitle, ConnectionErrorText)];
      assert Calls(r[1..]) == [];
      r
  }
}

=== FILE: gateway.dfy ===
/**
 * The resource gateway: every remote call answers with the envelope
 * `{success, message?, data}` or throws (network unreachable, malformed
 * response).  The calls themselves are abstract; a request is identified by
 * its operation and payload.
 */
module Gateway {
  import opened Wrappers

  /** The response body every endpoint of the remote service returns. */
  datatype Envelope<T> = Envelope(success: bool, message: Option<string>, data: Option<T>)

  /**
   * What awaiting a gateway call yields: the envelope of an answered call, or a
   * thrown error.  `apiMessage` is the `Message` field of an HTTP error body,
   * when the error carries one.
   */
  datatype Reply<T> = Answered(envelope: Envelope<T>) | Thrown(apiMessage: Option<string>)

  /** JavaScript truthiness of a `string | null | undefined`: absent and "" are falsy. */
  predicate Present(s: Option<string>) {
    s.Some? && s.value != ""
  }

  /** `message || fallback`: the server's message when it is a non-empty string. */
  function MessageOr(m: Option<string>, fallback: string): (r: string)
    ensures Present(m) ==> r == m.value
    ensures r == fallback || Some(r) == m
    ensures fallback != "" ==> r != ""
  {
    if Present(m) then m.value else fallback
  }

  /** Whether an answered call carried a non-null `data` (an empty list counts). */
  predicate HasData<T>(reply: Reply<T>) {
    reply.Answered? && reply.envelope.data.Some?
  }

  datatype UserField = FirstName | LastName | Document | Email | Password

  /**
   * The payload shared by the sign-up and tenant-user creation requests; the
   * two forms edit it field by field.
   */
  datatype NewUser = NewUser(firstName: string, lastName: string, document: string, email: string, password: string) {
    function Get(f: UserField): string {
      match f
      case FirstName => firstName
      case LastName => lastName
      case Document => document
      case Email => email
      case Password => password
    }

    /** `handleChange`: the named input takes the typed value, every other keeps its own. */
    function With(f: UserField, value: string): (r: NewUser)
      ensures r.Get(f) == value
      ensures forall g :: g != f ==> r.Get(g) == Get(g)
    {
      match f
      case FirstName => this.(firstName := value)
      case LastName => this.(lastName := value)
      case Document => this.(document := value)
      case Email => this.(email := value)
      case Password => this.(password := value)
    }
  }

  const BlankUser := NewUser("", "", "", "", "")

  /** The payload of the product create and update requests. */
  datatype ProductPayload = ProductPayload(
    tenantId: string, productCategoryId: string, name: string,
    description: string, sku: string, price: real, perishable: bool)

  /** Every operation the client issues against the remote service. */
  datatype Request =
    | SignIn(email: string, password: string)
    | CreateUser(user: NewUser)
    | GetCategories(tenantId: string)
    | CreateCategory(tenantId: string, name: string, description: string)
    | UpdateCategory(id: string, name: string, description: string)
    | ChangeCategoryStatus(id: string)
    | GetProducts(tenantId: string)
    | CreateProduct(product: ProductPayload)
    | UpdateProduct(id: string, product: ProductPayload)
    | ChangeProductStatus(id: string)
    | GetTenantUsers(tenantId: string)
    | CreateTenantUser(user: NewUser, tenantId: string)
    | ChangeTenantUserStatus(id: string)

  /**
   * The three ways a create/update submission ends: the service accepted it,
   * the service answered with `success = false` (a domain failure, shown as a
   * recoverable warning), or the call threw (a transport failure).
   */
  datatype Outcome = Saved | Refused(message: string) | Unreachable

  /** Classifies a mutation's reply; a refusal carries `message || fallback`. */
  function Classify<T>(reply: Reply<T>, fallback: string): (o: Outcome)
    ensures o.Saved? <==> reply.Answered? && reply.envelope.success
    ensures o.Unreachable? <==> reply.Thrown?
    ensures o.Refused? ==> reply.Answered? && o.message == MessageOr(reply.envelope.message, fallback)
  {
    match reply
    case Answered(env) => if env.success then Saved else Refused(MessageOr(env.message, fallback))
    case Thrown(_) => Unreachable
  }
}

=== FILE: home.dfy ===
/** The dashboard page: loads the owned ids for the sidebar and shows the active tenant. */
module Home {
  import opened Wrappers
  import opened Gateway
  import opened Browser
  import opened TenantSession

  const NoneSelected := "Nenhum Selecionado"

  /** `localStorage.getItem("active_tenant_id") || "Nenhum Selecionado"`. */
  function ActiveTenantLabel(stored: Option<string>): (r: string)
    ensures r != ""
    ensures Present(stored) ==> r == stored.value
    ensures !Present(stored) ==> r == NoneSelected
  {
    if Present(stored) then stored.value else NoneSelected
  }

  class HomePage {
    const window: Window
    var userTenantIds: seq<string>

    constructor (window: Window)
      ensures this.window == window && userTenantIds == []
    {
      this.window := window;
      userTenantIds := [];
    }

    /** The mount effect: the owned set the page hands to its sidebar. */
    method Mount(json: Json)
      modifies this, window`effects
      ensures var r := ReadOwnedIds(Lookup(window.storage, TenantIdsKey), json);
              && userTenantIds == (if r.Parsed? then r.ids else old(userTenantIds))
              && window.effects == old(window.effects) + (if r.Parsed? && r.ids == [] then [NoTenantWarning] else [])
    {
      userTenantIds := LoadOwnedIds(window, json, userTenantIds);
    }

    /** The text the page shows for the active tenant. */
    function Greeting(): (r: string)
      reads window
      ensures r != ""
      ensures var stored := Lookup(window.storage, ActiveTenantKey);
              && (Present(stored) ==> r == stored.value)
              && (!Present(stored) ==> r == NoneSelected)
    {
      ActiveTenantLabel(Lookup(window.storage, ActiveTenantKey))
    }
  }
}

=== FILE: list_page.dfy ===
/**
 * The list controller shared by the categories, products and tenant-users
 * pages: fetch the active tenant's list on mount, render it, and toggle an
 * item's status by firing the mutation and reloading the whole page.
 */
module ListPages {
  import opened Wrappers
  import opened Gateway
  import opened Browser
  import opened TenantSession

  datatype Resource = Categories | Products | TenantUsers

  /** The tenant-scoped list call of each page. */
  function ListRequest(resource: Resource, tenantId: string): Request {
    match resource
    case Categories => GetCategories(tenantId)
    case Products => GetProducts(tenantId)
    case TenantUsers => GetTenantUsers(tenantId)
  }

  /** The status-toggle call of each page. */
  function StatusRequest(resource: Resource, id: string): Request {
    match resource
    case Categories => ChangeCategoryStatus(id)
    case Products => ChangeProductStatus(id)
    case TenantUsers => ChangeTenantUserStatus(id)
  }

  /** The text shown when the list answer has no data and no message (the users page reuses the categories text). */
  function LoadFallback(resource: Resource): (r: string)
    ensures r != ""
  {
    match resource
    case Categories => "Erro ao carregar categorias."
    case Products => "Erro ao carregar produtos."
    case TenantUsers => "Erro ao carregar categorias."
  }

  /** The info toast a status toggle raises (the products page reuses the categories text). */
  function ToggleNotice(resource: Resource, id: string): (r: Effect)
    ensures r.Notify? && r.level == Info && r.description == ""
    ensures |r.title| > |id| + 1 && r.title[|r.title| - |id| - 1..] == id + ")"
  {
    match resource
    case Categories => Notify(Info, "Funcionalidade: Excluir categoria (ID: " + id + ")", "")
    case Products => Notify(Info, "Funcionalidade: Excluir categoria (ID: " + id + ")", "")
    case TenantUsers => Notify(Info, "Status do usuário alterado (ID: " + id + ")", "")
  }

  const StorageErrorText := "Não foi possível acessar o ID do tenant no armazenamento local."
  const TenantMissingText := "ID do Tenant não encontrado. Faça login novamente."
  const ConnectivityText := "Não foi possível conectar ao servidor ou houve um erro inesperado."

  /** How one run of the fetch effect ends. */
  datatype LoadOutcome<T> =
    | StorageUnreadable              // reading the active tenant id threw
    | TenantMissing                  // no (truthy) active tenant id is stored
    | Loaded(items: seq<T>)          // the answer carried a list, possibly empty
    | LoadRefused(message: string)   // the answer carried no list
    | LoadUnreachable                // the call threw

  /**
   * The fetch effect's decision: the tenant is read first and, when it is
   * missing or unreadable, no call is made; otherwise a non-null `data` is the
   * list whatever `success` says.
   */
  function LoadOutcomeOf<T>(storageThrows: bool, stored: Option<string>, reply: Reply<seq<T>>, fallback: string): (o: LoadOutcome<T>)
    ensures o.StorageUnreadable? <==> storageThrows
    ensures o.TenantMissing? <==> !storageThrows && !Present(stored)
    ensures o.Loaded? <==> !storageThrows && Present(stored) && reply.Answered? && reply.envelope.data.Some?
    ensures o.Loaded? ==> o.items == reply.envelope.data.value
    ensures o.LoadRefused? ==> reply.Answered? && o.message == MessageOr(reply.envelope.message, fallback)
    ensures o.LoadUnreachable? <==> !storageThrows && Present(stored) && reply.Thrown?
  {
    if storageThrows then StorageUnreadable
    else if !Present(stored) then TenantMissing
    else match reply
      case Answered(env) =>
        if env.data.Some? then Loaded(env.data.value) else LoadRefused(MessageOr(env.message, fallback))
      case Thrown(_) => LoadUnreachable
  }

  /** Whether the outcome went through the gateway. */
  predicate Issued<T>(o: LoadOutcome<T>) {
    !o.StorageUnreadable? && !o.TenantMissing?
  }

  /** The page's `error` after a fetch: cleared exactly when a list came back. */
  function ErrorAfter<T>(o: LoadOutcome<T>): (r: Option<string>)
    ensures r.None? <==> o.Loaded?
    ensures !o.Loaded? && !o.LoadRefused? ==> Present(r)
    ensures o.LoadRefused? ==> r == Some(o.message)
    ensures o.StorageUnreadable? ==> r == Some(StorageErrorText)
    ensures o.TenantMissing? ==> r == Some(TenantMissingText)
    ensures o.LoadUnreachable? ==> r == Some(ConnectivityText)
  {
    match o
    case StorageUnreadable => Some(StorageErrorText)
    case TenantMissing => Some(TenantMissingText)
    case Loaded(_) => None
    case LoadRefused(m) => Some(m)
    case LoadUnreachable => Some(ConnectivityText)
  }

  /** The calls one run of the fetch effect makes: the list call, only when a tenant was read. */
  function FetchEffects<T>(resource: Resource, stored: Option<string>, o: LoadOutcome<T>): (r: seq<Effect>)
    ensures Calls(r) == (if Issued(o) && stored.Some? then [ListRequest(resource, stored.value)] else [])
  {
    if Issued(o) && stored.Some? then [Call(ListRequest(resource, stored.value))] else []
  }

  /** What the page shows: spinner, then error card, then the empty notice, then the table. */
  datatype ListView<T> = Spinner | ErrorCard(message: string) | EmptyNotice | Table(rows: seq<T>)

  function Render<T>(isLoading: bool, error: Option<string>, items: seq<T>): (v: ListView<T>)
    ensures v.Spinner? <==> isLoading
    ensures v.ErrorCard? <==> !isLoading && Present(error)
    ensures v.EmptyNotice? <==> !isLoading && !Present(error) && items == []
    ensures v.ErrorCard? ==> v.message == error.value
    ensures v.Table? ==> v.rows == items && items != []
  {
    if isLoading then Spinner
    else if Present(error) then ErrorCard(error.value)
    else if items == [] then EmptyNotice
    else Table(items)
  }

  /** The effects of a status toggle: a notice, the mutation, then a full reload. */
  function ToggleEffects(resource: Resource, id: string): (r: seq<Effect>)
    ensures Calls(r) == [StatusRequest(resource, id)]
    ensures r[|r| - 1] == Reload
  {
    var r := [ToggleNotice(resource, id), Call(StatusRequest(resource, id)), Reload];
    assert !r[0].Call? && r[1..][1..] == [Reload] && r[1..][1..][1..] == [];
    assert Calls(r[1..][1..]) == [];
    assert Calls(r[1..]) == [StatusRequest(resource, id)];
    r
  }

  /**
   * The consistency rule: a toggle is followed, after the reload re-mounts the
   * page, by a fresh list call for the stored tenant, whatever the mutation
   * answered.
   */
  lemma ToggleThenRefetch<T>(resource: Resource, id: string, stored: Option<string>, reply: Reply<seq<T>>)
    requires Present(stored)
    ensures var o := LoadOutcomeOf(false, stored, reply, LoadFallback(resource));
            Calls(ToggleEffects(resource, id) + FetchEffects(resource, stored, o))
              == [StatusRequest(resource, id), ListRequest(resource, stored.value)]
  {
    var o := LoadOutcomeOf(false, stored, reply, LoadFallback(resource));
    CallsAppend(ToggleEffects(resource, id), FetchEffects(resource, stored, o));
  }

  class ListPage<T> {
    const resource: Resource
    const window: Window
    var items: seq<T>
    var isLoading: bool
    var error: Option<string>
    var userTenantIds: seq<string>

    /** A freshly mounted page, as after a reload: loading, no error, nothing listed. */
    constructor (resource: Resource, window: Window)
      ensures this.resource == resource && this.window == window
      ensures isLoading && error == None && items == [] && userTenantIds == []
    {
      this.resource := resource;
      this.window := window;
      items := [];
      isLoading := true;
      error := None;
      userTenantIds := [];
    }

    /** The owned-ids effect, for the page's sidebar. */
    method LoadOwnedIdsEffect(json: Json)
      modifies this`userTenantIds, window`effects
      ensures var r := ReadOwnedIds(Lookup(window.storage, TenantIdsKey), json);
              && userTenantIds == (if r.Parsed? then r.ids else old(userTenantIds))
              && window.effects == old(window.effects) + (if r.Parsed? && r.ids == [] then [NoTenantWarning] else [])
    {
      userTenantIds := LoadOwnedIds(window, json, userTenantIds);
    }

    /**
     * The fetch effect.  `storageThrows` says whether reading storage throws;
     * `reply` is what the list call yields when it is made.
     */
    method Fetch(storageThrows: bool, reply: Reply<seq<T>>)
      modifies this`items, this`isLoading, this`error, window`effects
      ensures var stored := Lookup(window.storage, ActiveTenantKey);
              var o := LoadOutcomeOf(storageThrows, stored, reply, LoadFallback(resource));
              && !isLoading
              && items == (if o.Loaded? then o.items else old(items))
              && error == ErrorAfter(o)
              && window.effects == old(window.effects) + FetchEffects(resource, stored, o)
      ensures var o := LoadOutcomeOf(storageThrows, Lookup(window.storage, ActiveTenantKey), reply, LoadFallback(resource));
              && (o.Loaded? ==> View() == if o.items == [] then EmptyNotice else Table(o.items))
              && (!o.Loaded? ==> View().ErrorCard?)
    {
      if storageThrows {
        error := Some(StorageErrorText);
        isLoading := false;
        return;
      }
      var tenantId := window.GetItem(ActiveTenantKey);
      if !Present(tenantId) {
        error := Some(TenantMissingText);
        isLoading := false;
        return;
      }
      isLoading := true;
      error := None;
      window.Emit(Call(ListRequest(resource, tenantId.value)));
      match reply {
        case Answered(response) =>
          if response.data.Some? {
            items := response.data.value;
          } else {
            error := Some(MessageOr(response.message, LoadFallback(resource)));
          }
        case Thrown(_) =>
          error := Some(ConnectivityText);
      }
      isLoading := false;
    }

    /** `handleChangeStatus`: the mutation is fired, not awaited or inspected, and the page reloads. */
    method ChangeStatus(id: string)
      modifies window`effects
      ensures window.effects == old(window.effects) + ToggleEffects(resource, id)
    {
      window.Emit(ToggleNotice(resource, id));
      window.Emit(Call(StatusRequest(resource, id)));
      window.Emit(Reload);
    }

    /** The reload re-mounts the page: its state starts over as the constructor leaves it. */
    method Remount()
      modifies this`items, this`isLoading, this`error, this`userTenantIds
      ensures isLoading && error == None && items == [] && userTenantIds == []
    {
      items := [];
      isLoading := true;
      error := None;
      userTenantIds := [];
    }

    function View(): ListView<T>
      reads this
    {
      Render(isLoading, error, items)
    }
  }
}

=== FILE: product_form.dfy ===
/**
 * The product form (create, and edit through `/products/edit/{id}`): category
 * options are fetched first, an edited product is found in the full product
 * list, the price is validated before submission, and the submission creates
 * or updates.
 */
module ProductForm {
  import opened Wrappers
  import opened Gateway
  import opened Browser
  import opened Catalog
  import opened Forms

  datatype ProductField = NameField | SkuField | PriceField | DescriptionField

  /** The form state; `price` holds the text of the number input. */
  datatype ProductFormData = ProductFormData(
    id: Option<string>, productCategoryId: string, name: string,
    description: string, sku: string, price: string, perishable: bool)
  {
    function Get(f: ProductField): string {
      match f
      case NameField => name
      case SkuField => sku
      case PriceField => price
      case DescriptionField => description
    }

    /** `handleChange`: the named input takes the typed value; the rest of the form keeps its own. */
    function With(f: ProductField, value: string): (r: ProductFormData)
      ensures r.Get(f) == value
      ensures forall g :: g != f ==> r.Get(g) == Get(g)
      ensures r.id == id && r.productCategoryId == productCategoryId && r.perishable == perishable
    {
      match f
      case NameField => this.(name := value)
      case SkuField => this.(sku := value)
      case PriceField => this.(price := value)
      case DescriptionField => this.(description := value)
    }
  }

  const EmptyForm := ProductFormData(None, "", "", "", "", "", false)

  /** `parseFloat` (NaN is `None`) and `Number.prototype.toString` on prices. */
  datatype Numbers = Numbers(parseFloat: string -> Option<real>, show: real -> string)

  /** What JavaScript guarantees of a finite price: its text parses back to it. */
  ghost predicate ShowsFaithfully(numbers: Numbers, price: real) {
    numbers.parseFloat(numbers.show(price)) == Some(price)
  }

  /** An edited product fills the form: price as text, a missing description as "". */
  function FormFromProduct(p: Product, numbers: Numbers): (r: ProductFormData)
    ensures r.id == Some(p.id) && r.productCategoryId == p.categoryId && r.perishable == p.perishable
    ensures r.Get(NameField) == p.name && r.Get(SkuField) == p.sku
    ensures r.description == "" <==> p.description.None? || p.description == Some("")
    ensures r.description != "" ==> p.description == Some(r.description)
    ensures ShowsFaithfully(numbers, p.price) ==> numbers.parseFloat(r.price) == Some(p.price)
  {
    ProductFormData(Some(p.id), p.categoryId, p.name, p.description.GetOr(""), p.sku, numbers.show(p.price), p.perishable)
  }

  /**
   * A loaded category list preselects its first category, in create mode only;
   * an edit keeps the edited product's category.
   */
  function Preselected(form: ProductFormData, mode: Mode, list: seq<Category>): (r: ProductFormData)
    ensures mode.Edit? || list == [] ==> r == form
    ensures mode.Create? && list != [] ==> r == form.(productCategoryId := list[0].id)
    ensures mode.Create? && list != [] ==> exists c :: c in list && c.id == r.productCategoryId
  {
    if mode.Create? && |list| > 0 then form.(productCategoryId := list[0].id) else form
  }

  const CategoriesFallback := "Erro ao carregar lista de categorias."
  const CategoriesUnreachable := "Erro ao carregar dados de categorias."
  const ProductsFallback := "Erro ao carregar lista de produtos."
  const ProductsUnreachable := "Erro ao carregar dados do produto."
  const ProductNotFound := "Produto não encontrado na lista."
  const TenantMissingText := "ID do Tenant não encontrado. Impossível carregar dados."

  /** The error a category fetch without data sets. */
  function CategoriesError(reply: Reply<seq<Category>>): (r: string)
    ensures r != ""
    ensures reply.Answered? ==> r == MessageOr(reply.envelope.message, CategoriesFallback)
    ensures reply.Thrown? ==> r == CategoriesUnreachable
  {
    match reply
    case Answered(env) => MessageOr(env.message, CategoriesFallback)
    case Thrown(_) => CategoriesUnreachable
  }

  /** The error an edit lookup sets; none when the product was found. */
  function LookupError(l: Search<Product>): (r: Option<string>)
    ensures r.None? <==> l.Found?
    ensures r.Some? ==> r.value != ""
    ensures l.NotFound? ==> r == Some(ProductNotFound)
    ensures l.ListRefused? ==> r == Some(MessageOr(l.message, ProductsFallback))
    ensures l.ListUnreachable? ==> r == Some(ProductsUnreachable)
  {
    match l
    case Found(_) => None
    case NotFound => Some(ProductNotFound)
    case ListRefused(m) => Some(MessageOr(m, ProductsFallback))
    case ListUnreachable => Some(ProductsUnreachable)
  }

  /** How `handleSubmit`'s checks end, in their order: tenant first, then price. */
  datatype Guard = NoTenant | BadPrice | Proceed(tenantId: string, price: real)

  /**
   * A submission proceeds only with a stored tenant and a price that parses
   * to a number that is not negative (zero is accepted).
   */
  function SubmitGuard(stored: Option<string>, parsed: Option<real>): (g: Guard)
    ensures g.Proceed? <==> Present(stored) && parsed.Some? && parsed.value >= 0.0
    ensures g.NoTenant? <==> !Present(stored)
    ensures g.Proceed? ==> g.tenantId == stored.value && g.price == parsed.value
  {
    if !Present(stored) then NoTenant
    else if parsed.None? || parsed.value < 0.0 then BadPrice
    else Proceed(stored.value, parsed.value)
  }

  /**
   * The dispatched request: an update exactly in edit mode with a (truthy)
   * form id, a creation otherwise; both carry the parsed price and the tenant.
   */
  function SaveRequest(mode: Mode, form: ProductFormData, tenantId: string, price: real): (req: Request)
    ensures req.UpdateProduct? <==> mode.Edit? && Present(form.id)
    ensures req.CreateProduct? <==> !(mode.Edit? && Present(form.id))
    ensures req.UpdateProduct? ==> req.id == form.id.value
    ensures req.product.tenantId == tenantId && req.product.price == price
    ensures req.product == ProductPayload(tenantId, form.productCategoryId, form.name, form.description, form.sku, price, form.perishable)
  {
    var payload := ProductPayload(tenantId, form.productCategoryId, form.name, form.description, form.sku, price, form.perishable);
    if mode.Edit? && Present(form.id) then UpdateProduct(form.id.value, payload) else CreateProduct(payload)
  }

  /** The effects of a successful save: a success toast naming the product, then the product list. */
  function SavedEffects(mode: Mode, name: string): (r: seq<Effect>)
    ensures |r| == 2 && r[1] == Navigate("/products")
    ensures r[0].Notify? && r[0].level == Success
    ensures r[0].title == "Produto atualizado com sucesso!" <==> mode.Edit?
    ensures forall p :: Navigate(p) in r ==> p == "/products"
  {
    [Notify(Success, if mode.Edit? then "Produto atualizado com sucesso!" else "Produto cadastrado com sucesso!",
            "Produto '" + name + "' salvo."),
     Navigate("/products")]
  }

  /** The submit button is disabled while saving, without category options, or without a chosen category. */
  function SubmitDisabled(loading: bool, categories: seq<Category>, form: ProductFormData): (r: bool)
    ensures !r ==> !loading && |categories| > 0 && form.productCategoryId != ""
    ensures loading || categories == [] || form.productCategoryId == "" ==> r
  {
    loading || |categories| == 0 || form.productCategoryId == ""
  }

  /**
   * Editing a product and submitting the form unchanged sends an update of
   * that very product, when its price text parses back to its price.
   */
  lemma EditRoundTrip(p: Product, numbers: Numbers, tenantId: string)
    requires ShowsFaithfully(numbers, p.price) && p.price >= 0.0
    requires p.id != "" && tenantId != ""
    ensures var form := FormFromProduct(p, numbers);
            && SubmitGuard(Some(tenantId), numbers.parseFloat(form.price)) == Proceed(tenantId, p.price)
            && SaveRequest(Edit(p.id), form, tenantId, p.price) ==
                 UpdateProduct(p.id, ProductPayload(tenantId, p.categoryId, p.name, p.description.GetOr(""), p.sku, p.price, p.perishable))
  {
  }

  /** Without category options the product cannot be submitted, whatever else holds. */
  lemma NoCategoriesNoSubmit(loading: bool, form: ProductFormData)
    ensures SubmitDisabled(loading, [], form)
  {
  }

  class ProductFormPage {
    const window: Window
    const mode: Mode
    var form: ProductFormData
    var categories: seq<Category>
    var loading: bool
    var initialLoading: bool
    var error: Option<string>

    constructor (window: Window, initialProductId: Option<string>)
      ensures this.window == window && mode == ModeOf(initialProductId)
      ensures form == EmptyForm && categories == [] && !loading && error == None
      ensures initialLoading == mode.Edit?
    {
      this.window := window;
      mode := ModeOf(initialProductId);
      form := EmptyForm;
      categories := [];
      loading := false;
      initialLoading := Present(initialProductId);
      error := None;
    }

    /** `fetchCategories`: options for the select; failures become the page error. */
    method FetchCategories(tenantId: string, reply: Reply<seq<Category>>)
      modifies this`categories, this`form, this`error, window`effects
      ensures window.effects == old(window.effects) + [Call(GetCategories(tenantId))]
      ensures HasData(reply) ==> categories == reply.envelope.data.value && error == old(error)
      ensures HasData(reply) ==> form == Preselected(old(form), mode, categories)
      ensures !HasData(reply) ==> categories == old(categories) && form == old(form) && error == Some(CategoriesError(reply))
    {
      window.Emit(Call(GetCategories(tenantId)));
      match reply {
        case Answered(response) =>
          if response.data.Some? {
            var categoriesData := response.data.value;
            categories := categoriesData;
            if !mode.Edit? && |categoriesData| > 0 {
              form := form.(productCategoryId := categoriesData[0].id);
            }
          } else {
            error := Some(MessageOr(response.message, CategoriesFallback));
          }
        case Thrown(_) =>
          error := Some(CategoriesUnreachable);
      }
    }

    /**
     * `fetchProductData`: the category fetch is awaited before the product
     * list is requested, and its failure does not stop the product lookup.
     */
    method FetchProductData(id: string, tenantId: string, categoriesReply: Reply<seq<Category>>,
                            productsReply: Reply<seq<Product>>, numbers: Numbers)
      modifies this`categories, this`form, this`error, this`initialLoading, window`effects
      ensures window.effects == old(window.effects) + [Call(GetCategories(tenantId)), Call(GetProducts(tenantId))]
      ensures !initialLoading
      ensures categories == (if HasData(categoriesReply) then categoriesReply.envelope.data.value else old(categories))
      ensures var l := SearchList(productsReply, id, (p: Product) => p.id);
              var categoriesError := if HasData(categoriesReply) then old(error) else Some(CategoriesError(categoriesReply));
              var formAfterCategories := if HasData(categoriesReply) then Preselected(old(form), mode, categories) else old(form);
              && form == (if l.Found? then FormFromProduct(l.item, numbers) else formAfterCategories)
              && error == (if l.Found? then categoriesError else LookupError(l))
    {
      FetchCategories(tenantId, categoriesReply);
      window.Emit(Call(GetProducts(tenantId)));
      match productsReply {
        case Answered(response) =>
          if response.data.Some? {
            var foundProduct := Find(response.data.value, id, (p: Product) => p.id);
            if foundProduct.Some? {
              var p := foundProduct.value;
              form := ProductFormData(Some(p.id), p.categoryId, p.name, p.description.GetOr(""), p.sku,
                                      numbers.show(p.price), p.perishable);
            } else {
              error := Some(ProductNotFound);
            }
          } else {
            error := Some(MessageOr(response.message, ProductsFallback));
          }
        case Thrown(_) =>
          error := Some(ProductsUnreachable);
      }
      initialLoading := false;
    }

    /**
     * The mount effect: without a stored tenant nothing is fetched; an edit
     * loads categories then the product; a creation loads the categories.
     */
    method Mount(categoriesReply: Reply<seq<Category>>, productsReply: Reply<seq<Product>>, numbers: Numbers)
      modifies this`categories, this`form, this`error, this`initialLoading, window`effects
      ensures !initialLoading
      ensures var stored := Lookup(window.storage, ActiveTenantKey);
              && (!Present(stored) ==>
                    error == Some(TenantMissingText) && window.effects == old(window.effects) &&
                    form == old(form) && categories == old(categories))
              && (Present(stored) && mode.Edit? ==>
                    window.effects == old(window.effects) + [Call(GetCategories(stored.value)), Call(GetProducts(stored.value))])
              && (Present(stored) && mode.Create? ==>
                    window.effects == old(window.effects) + [Call(GetCategories(stored.value))])
      ensures var stored := Lookup(window.storage, ActiveTenantKey);
              Present(stored) && mode.Edit? ==>
                var l := SearchList(productsReply, mode.id, (p: Product) => p.id);
                var categoriesError := if HasData(categoriesReply) then old(error) else Some(CategoriesError(categoriesReply));
                var formAfterCategories := if HasData(categoriesReply) then Preselected(old(form), mode, categories) else old(form);
                && categories == (if HasData(categoriesReply) then categoriesReply.envelope.data.value else old(categories))
                && form == (if l.Found? then FormFromProduct(l.item, numbers) else formAfterCategories)
                && error == (if l.Found? then categoriesError else LookupError(l))
      ensures var stored := Lookup(window.storage, ActiveTenantKey);
              Present(stored) && mode.Create? ==>
                && (HasData(categoriesReply) ==>
                      categories == categoriesReply.envelope.data.value && error == old(error) &&
                      form == Preselected(old(form), mode, categories))
                && (!HasData(categoriesReply) ==>
                      categories == old(categories) && form == old(form) && error == Some(CategoriesError(categoriesReply)))
      ensures mode.Edit? ==> form.productCategoryId == old(form.productCategoryId) || form.id.Some?
      ensures mode.Create? && HasData(categoriesReply) && categories != [] && categories[0].id != "" &&
              Present(Lookup(window.storage, ActiveTenantKey)) && !loading ==>
                !SubmitDisabled(loading, categories, form)
    {
      var tenantId := window.GetItem(ActiveTenantKey);
      if !Present(tenantId) {
        error := Some(TenantMissingText);
        initialLoading := false;
        return;
      }
      if mode.Edit? {
        FetchProductData(mode.id, tenantId.value, categoriesReply, productsReply, numbers);
      } else {
        FetchCategories(tenantId.value, categoriesReply);
        initialLoading := false;
      }
    }

    method HandleChange(f: ProductField, value: string)
      modifies this`form
      ensures form == old(form).With(f, value)
    {
      form := form.With(f, value);
    }

    method HandleCheckboxChange(checked: bool)
      modifies this`form
      ensures form == old(form).(perishable := checked)
    {
      form := form.(perishable := checked);
    }

    method HandleSelectChange(value: string)
      modifies this`form
      ensures form == old(form).(productCategoryId := value)
    {
      form := form.(productCategoryId := value);
    }

    /**
     * `handleSubmit`: no call without a tenant or a valid price; otherwise one
     * create or update call, and its outcome's toast and navigation.
     */
    method Submit(numbers: Numbers, reply: Reply<bool>)
      modifies this`loading, window`effects
      ensures !loading
      ensures var g := SubmitGuard(Lookup(window.storage, ActiveTenantKey), numbers.parseFloat(form.price));
              window.effects == old(window.effects) + match g
                case NoTenant => [Notify(Error, "Erro de Autenticação.", "ID do Tenant não encontrado.")]
                case BadPrice => [Notify(Warning, "Dados inválidos.", "O preço deve ser um número válido e positivo.")]
                case Proceed(t, price) =>
                  [Call(SaveRequest(mode, form, t, price))] +
                  Report(Classify(reply, CheckDataText), SavedEffects(mode, form.name), SaveFailedTitle)
    {
      loading := true;
      var tenantId := window.GetItem(ActiveTenantKey);
      if !Present(tenantId) {
        window.Emit(Notify(Error, "Erro de Autenticação.", "ID do Tenant não encontrado."));
        loading := false;
        return;
      }
      var priceValue := numbers.parseFloat(form.price);
      if priceValue.None? || priceValue.value < 0.0 {
        window.Emit(Notify(Warning, "Dados inválidos.", "O preço deve ser um número válido e positivo."));
        loading := false;
        return;
      }
      window.Emit(Call(SaveRequest(mode, form, tenantId.value, priceValue.value)));
      match reply {
        case Answered(result) =>
          if result.success {
            window.Emit(Notify(Success, if mode.Edit? then "Produto atualizado com sucesso!" else "Produto cadastrado com sucesso!",
                               "Produto '" + form.name + "' salvo."));
            window.Emit(Navigate("/products"));
          } else {
            window.Emit(Notify(Warning, SaveFailedTitle, MessageOr(result.message, CheckDataText)));
          }
        case Thrown(_) =>
          window.Emit(Notify(Error, ConnectionErrorTitle, ConnectionErrorText));
      }
      loading := false;
    }
  }
}

=== FILE: scenarios.dfy ===
/**
 * An end-to-end path through the model: a sign-in that owns two
 * tenants, the categories page of the first one, and a status toggle there.
 */
module Scenarios {
  import opened Wrappers
  import opened Gateway
  import opened Browser
  import opened Catalog
  import opened TenantSession
  import opened SignIn
  import opened ListPages

  /**
   * Signing in as `u1` with tenants `t1` and `t2` makes `t1` active, and the
   * sidebar keeps it; an empty category list then renders the empty notice,
   * not an error; and toggling category `c1` issues its status change and, after
   * the reload, a fresh category fetch for `t1`.
   */
  lemma {:induction false} SignInThenCategories(entries: map<string, string>, json: Json)
    requires RoundTrips(json)
    ensures var user := SignInData("u1", ["t1", "t2"]);
            var e := SessionWrites(entries, LoginOutcomeOf(Answered(Envelope(true, None, Some(user)))), json);
            var stored := Lookup(e, ActiveTenantKey);
            var o := LoadOutcomeOf(false, stored, Answered(Envelope(true, None, Some([]))), LoadFallback(Categories));
            && ReadOwnedIds(Lookup(e, TenantIdsKey), json) == Parsed(["t1", "t2"])
            && Resolve(["t1", "t2"], stored) == Select("t1", false)
            && o == Loaded([]) && Render<Category>(false, ErrorAfter(o), o.items) == EmptyNotice
            && Calls(ToggleEffects(Categories, "c1") + FetchEffects(Categories, stored, o))
                 == [ChangeCategoryStatus("c1"), GetCategories("t1")]
  {
    var user := SignInData("u1", ["t1", "t2"]);
    SignInThenSidebar(entries, json, user, None);
    var e := SessionWrites(entries, LoginOutcomeOf(Answered(Envelope(true, None, Some(user)))), json);
    var stored := Lookup(e, ActiveTenantKey);
    assert stored == Some("t1");
    ToggleThenRefetch<Category>(Categories, "c1", stored, Answered(Envelope(true, None, Some([]))));
  }
}

=== FILE: session.dfy ===
/**
 * The tenant session as the navigation sidebar keeps it: which of the owned
 * tenants is active, persisted under `active_tenant_id`, plus the sidebar's
 * navigation highlighting rule and the owned-ids load of the dashboard and the three list pages.
 */
module TenantSession {
  import opened Wrappers
  import opened Gateway
  import opened Browser

  /**
   * What the sidebar's resolution effect does: nothing (`Keep`, no owned
   * tenants), or make `id` active, also writing it to storage when `persist`.
   */
  datatype Resolution = Keep | Select(id: string, persist: bool)

  /** The resolution rule for the owned ids `tenantIds` and the stored active id. */
  function Resolve(tenantIds: seq<string>, stored: Option<string>): (r: Resolution)
    ensures r.Select? <==> |tenantIds| > 0
    ensures r.Select? ==> r.id in tenantIds
    ensures Present(stored) && stored.value in tenantIds ==> r == Select(stored.value, false)
    ensures r.Select? && !r.persist ==> Present(stored) && stored.value == r.id
    ensures r.Select? && r.persist ==> r.id == tenantIds[0] && !(Present(stored) && stored.value in tenantIds)
  {
    if Present(stored) && stored.value in tenantIds then Select(stored.value, false)
    else if |tenantIds| > 0 then Select(tenantIds[0], true)
    else Keep
  }

  /** The storage after a resolution: only a persisting selection writes, and only its own key. */
  function Persisted(entries: map<string, string>, r: Resolution): map<string, string> {
    if r.Select? && r.persist then entries[ActiveTenantKey := r.id] else entries
  }

  /** With at least one owned tenant, the active id is owned and is what storage holds. */
  lemma ResolutionIsStored(tenantIds: seq<string>, entries: map<string, string>)
    requires |tenantIds| > 0
    ensures var r := Resolve(tenantIds, Lookup(entries, ActiveTenantKey));
            r.Select? && r.id in tenantIds && Lookup(Persisted(entries, r), ActiveTenantKey) == Some(r.id)
  {
  }

  /**
   * Re-running the resolution on the storage it produced selects the same id
   * and leaves storage as it is; it writes nothing when that id is non-empty.
   */
  lemma ResolveIdempotent(tenantIds: seq<string>, entries: map<string, string>)
    ensures var r1 := Resolve(tenantIds, Lookup(entries, ActiveTenantKey));
            var e1 := Persisted(entries, r1);
            var r2 := Resolve(tenantIds, Lookup(e1, ActiveTenantKey));
            && Persisted(e1, r2) == e1
            && (r1.Select? <==> r2.Select?)
            && (r1.Select? ==> r2.id == r1.id)
            && (r1.Select? && r1.id != "" ==> !r2.persist)
  {
    var r1 := Resolve(tenantIds, Lookup(entries, ActiveTenantKey));
    var e1 := Persisted(entries, r1);
    if r1.Select? {
      assert Lookup(e1, ActiveTenantKey) == Some(r1.id);
    }
  }

  /**
   * The user's explicit choice is written without a membership check; the next
   * resolution keeps it only when it is a non-empty owned id, otherwise falls
   * back to (and persists) the first owned id, and with no owned ids does nothing.
   */
  lemma ChoiceThenResolve(tenantIds: seq<string>, entries: map<string, string>, choice: string)
    ensures var r := Resolve(tenantIds, Lookup(entries[ActiveTenantKey := choice], ActiveTenantKey));
            && (choice != "" && choice in tenantIds ==> r == Select(choice, false))
            && (choice !in tenantIds && |tenantIds| > 0 ==> r == Select(tenantIds[0], true))
            && (choice == "" && |tenantIds| > 0 ==> r == Select(tenantIds[0], true))
            && (|tenantIds| == 0 ==> r == Keep)
  {
    assert Lookup(entries[ActiveTenantKey := choice], ActiveTenantKey) == Some(choice);
  }

  /** The navigation shell's selector state for the owned tenants `tenantIds`. */
  class Sidebar {
    const window: Window
    var activeTenantId: Option<string>

    constructor (window: Window)
      ensures this.window == window && activeTenantId == None
    {
      this.window := window;
      activeTenantId := None;
    }

    /** The effect that runs on mount and whenever the `tenantIds` prop changes. */
    method ResolveActiveTenant(tenantIds: seq<string>)
      modifies this, window`storage
      ensures var r := Resolve(tenantIds, Lookup(old(window.storage), ActiveTenantKey));
              && activeTenantId == (if r.Select? then Some(r.id) else old(activeTenantId))
              && window.storage == Persisted(old(window.storage), r)
      ensures |tenantIds| > 0 ==> activeTenantId.Some? && activeTenantId.value in tenantIds &&
                                  Lookup(window.storage, ActiveTenantKey) == activeTenantId
      ensures |tenantIds| == 0 ==> activeTenantId == old(activeTenantId) && window.storage == old(window.storage)
      ensures |tenantIds| > 0 && tenantIds[0] != "" ==> !SelectorDisabled()
    {
      var storedTenant := window.GetItem(ActiveTenantKey);
      if Present(storedTenant) && storedTenant.value in tenantIds {
        activeTenantId := storedTenant;
      } else if |tenantIds| > 0 {
        var defaultTenant := tenantIds[0];
        activeTenantId := Some(defaultTenant);
        window.SetItem(ActiveTenantKey, defaultTenant);
      }
      if |tenantIds| > 0 {
        ResolutionIsStored(tenantIds, old(window.storage));
      }
    }

    /** `handleTenantChange`: the choice becomes active and is persisted, owned or not. */
    method HandleTenantChange(tenantId: string)
      modifies this, window`storage
      ensures activeTenantId == Some(tenantId)
      ensures window.storage == old(window.storage)[ActiveTenantKey := tenantId]
    {
      activeTenantId := Some(tenantId);
      window.SetItem(ActiveTenantKey, tenantId);
    }

    /** The tenant selector is disabled exactly when there is no (truthy) active id. */
    function SelectorDisabled(): bool
      reads this
    {
      !Present(activeTenantId)
    }
  }

  /** `String.prototype.startsWith`. */
  function StartsWith(s: string, prefix: string): (r: bool)
    ensures r <==> prefix <= s
  {
    |prefix| <= |s| && s[..|prefix|] == prefix
  }

  const DashboardHref := "/dashboard"

  /**
   * A navigation item is highlighted on its own path and, except for the
   * dashboard, on every path it is a prefix of.
   */
  function IsNavActive(pathname: string, href: string): (r: bool)
    ensures pathname == href ==> r
    ensures href != DashboardHref ==> (r <==> href <= pathname)
    ensures href == DashboardHref ==> (r <==> pathname == DashboardHref)
  {
    pathname == href || (href != DashboardHref && StartsWith(pathname, href))
  }

  datatype NavItem = NavItem(name: string, href: string)

  const NavItems := [
    NavItem("Categorias", "/categories"),
    NavItem("Produtos", "/products"),
    NavItem("Usuários", "/user/tenant")
  ]

  /** Whatever the path, at most one of the sidebar's items is highlighted. */
  lemma {:induction false} AtMostOneNavItemActive(pathname: string, i: nat, j: nat)
    requires i < |NavItems| && j < |NavItems|
    requires IsNavActive(pathname, NavItems[i].href) && IsNavActive(pathname, NavItems[j].href)
    ensures i == j
  {
    var hi, hj := NavItems[i].href, NavItems[j].href;
    assert hi <= pathname && hj <= pathname;
    assert |hi| > 1 && |hj| > 1;
    assert pathname[1] == hi[1] && pathname[1] == hj[1];
    assert NavItems[0].href[1] == 'c' && NavItems[1].href[1] == 'p' && NavItems[2].href[1] == 'u';
  }

  /** What reading the owned tenant ids from storage yields. */
  datatype OwnedIds = NotStored | Unparsable | Parsed(ids: seq<string>)

  function ReadOwnedIds(stored: Option<string>, json: Json): (r: OwnedIds)
    ensures r.NotStored? <==> !Present(stored)
    ensures r.Unparsable? <==> Present(stored) && json.parse(stored.value).None?
    ensures r.Parsed? ==> Present(stored) && json.parse(stored.value) == Some(r.ids)
  {
    if !Present(stored) then NotStored
    else match json.parse(stored.value)
      case None => Unparsable
      case Some(ids) => Parsed(ids)
  }

  /**
   * The owned-ids effect of the home and list pages: a parsed list replaces
   * `current` (an empty one also raises the no-tenant warning); an absent or
   * unparsable value leaves `current` as it was and warns of nothing.
   */
  method LoadOwnedIds(window: Window, json: Json, current: seq<string>) returns (ids: seq<string>)
    modifies window`effects
    ensures var r := ReadOwnedIds(Lookup(window.storage, TenantIdsKey), json);
            && ids == (if r.Parsed? then r.ids else current)
            && window.effects == old(window.effects) + (if r.Parsed? && r.ids == [] then [NoTenantWarning] else [])
  {
    ids := current;
    var storedIds := window.GetItem(TenantIdsKey);
    if Present(storedIds) {
      var parsed := json.parse(storedIds.value);
      if parsed.Some? {
        ids := parsed.value;
        if |ids| == 0 {
          window.Emit(NoTenantWarning);
        }
      }
    }
  }
}

=== FILE: sign_in.dfy ===
/** The sign-in page: opens a session by storing the owned tenant ids and an active one. */
module SignIn {
  import opened Wrappers
  import opened Gateway
  import opened Browser
  import opened TenantSession

  /** The `data` of a successful sign-in. */
  datatype SignInData = SignInData(id: string, tenantIds: seq<string>)

  datatype CredentialField = EmailField | PasswordField

  datatype Credentials = Credentials(email: string, password: string) {
    function Get(f: CredentialField): string {
      match f
      case EmailField => email
      case PasswordField => password
    }

    /** `handleChange`: the named input takes the typed value, the other keeps its own. */
    function With(f: CredentialField, value: string): (r: Credentials)
      ensures r.Get(f) == value
      ensures forall g :: g != f ==> r.Get(g) == Get(g)
    {
      match f
      case EmailField => this.(email := value)
      case PasswordField => this.(password := value)
    }
  }

  const RefusedDefault := "E-mail ou senha inválidos."
  const FailedDefault := "Mensagem da API não encontrada ou erro de rede."

  datatype LoginOutcome = LoggedIn(user: SignInData) | LoginRefused(message: string) | LoginFailed(message: string)

  /**
   * A login succeeds only when the envelope says `success` AND carries data;
   * a thrown call shows the error body's `Message` when there is one.
   */
  function LoginOutcomeOf(reply: Reply<SignInData>): (o: LoginOutcome)
    ensures o.LoggedIn? <==> reply.Answered? && reply.envelope.success && reply.envelope.data.Some?
    ensures o.LoggedIn? ==> o.user == reply.envelope.data.value
    ensures o.LoginRefused? ==> reply.Answered? && o.message == MessageOr(reply.envelope.message, RefusedDefault)
    ensures o.LoginFailed? <==> reply.Thrown?
    ensures o.LoginFailed? ==> o.message == MessageOr(reply.apiMessage, FailedDefault)
    ensures !o.LoggedIn? ==> o.message != ""
  {
    match reply
    case Answered(env) =>
      if env.success && env.data.Some? then LoggedIn(env.data.value)
      else LoginRefused(MessageOr(env.message, RefusedDefault))
    case Thrown(apiMessage) => LoginFailed(MessageOr(apiMessage, FailedDefault))
  }

  /**
   * The storage a login leaves: on success the serialised owned ids, and the
   * first of them as active when there is one; nothing else is written.
   */
  function SessionWrites(entries: map<string, string>, o: LoginOutcome, json: Json): (m: map<string, string>)
    ensures !o.LoggedIn? ==> m == entries
    ensures o.LoggedIn? ==> Lookup(m, TenantIdsKey) == Some(json.stringify(o.user.tenantIds))
    ensures o.LoggedIn? && |o.user.tenantIds| > 0 ==> Lookup(m, ActiveTenantKey) == Some(o.user.tenantIds[0])
    ensures o.LoggedIn? && |o.user.tenantIds| == 0 ==> Lookup(m, ActiveTenantKey) == Lookup(entries, ActiveTenantKey)
    ensures forall k :: k != TenantIdsKey && k != ActiveTenantKey ==> Lookup(m, k) == Lookup(entries, k)
  {
    match o
    case LoggedIn(user) =>
      var withIds := entries[TenantIdsKey := json.stringify(user.tenantIds)];
      if |user.tenantIds| > 0 then withIds[ActiveTenantKey := user.tenantIds[0]] else withIds
    case _ => entries
  }

  /** The toast and navigation a login ends with; only a login navigates, to `/home`. */
  function LoginEffects(o: LoginOutcome): (r: seq<Effect>)
    ensures Navigate("/home") in r <==> o.LoggedIn?
    ensures Calls(r) == []
    ensures !o.LoggedIn? ==> |r| == 1 && r[0].Notify? && r[0].description == o.message
    ensures o.LoginRefused? ==> r[0].level == Warning
    ensures o.LoginFailed? ==> r[0].level == Error
    ensures o.LoggedIn? ==> |r| == 2 && r[0].Notify? && r[0].level == Success && r[1] == Navigate("/home")
    ensures forall p :: Navigate(p) in r ==> p == "/home"
  {
    match o
    case LoggedIn(user) =>
      var r := [Notify(Success, "Login efetuado com sucesso.", "Bem-vindo! ID: " + user.id), Navigate("/home")];
      assert Calls(r[1..][1..]) == [];
      r
    case LoginRefused(m) => [Notify(Warning, "Falha no login.", m)]
    case LoginFailed(m) => [Notify(Error, "Falha ao processar a requisição.", m)]
  }

  class SignInPage {
    const window: Window
    var form: Credentials
    var loading: bool

    constructor (window: Window)
      ensures this.window == window && form == Credentials("", "") && !loading
    {
      this.window := window;
      form := Credentials("", "");
      loading := false;
    }

    method HandleChange(f: CredentialField, value: string)
      modifies this
      ensures form == old(form).With(f, value) && loading == old(loading)
    {
      form := form.With(f, value);
    }

    /** `handleSubmit`: one sign-in call, then the outcome's storage writes, toast and navigation. */
    method HandleSubmit(json: Json, reply: Reply<SignInData>)
      modifies this, window
      ensures !loading && form == old(form)
      ensures window.storage == SessionWrites(old(window.storage), LoginOutcomeOf(reply), json)
      ensures window.effects == old(window.effects) + [Call(SignIn(form.email, form.password))] + LoginEffects(LoginOutcomeOf(reply))
    {
      loading := true;
      window.Emit(Call(SignIn(form.email, form.password)));
      match reply {
        case Answered(result) =>
          if result.success && result.data.Some? {
            var userData := result.data.value;
            window.SetItem(TenantIdsKey, json.stringify(userData.tenantIds));
            if |userData.tenantIds| > 0 {
              window.SetItem(ActiveTenantKey, userData.tenantIds[0]);
            }
            window.Emit(Notify(Success, "Login efetuado com sucesso.", "Bem-vindo! ID: " + userData.id));
            window.Emit(Navigate("/home"));
          } else {
            window.Emit(Notify(Warning, "Falha no login.", MessageOr(result.message, RefusedDefault)));
          }
        case Thrown(apiMessage) =>
          var errorMessage := FailedDefault;
          if Present(apiMessage) {
            errorMessage := apiMessage.value;
          }
          window.Emit(Notify(Error, "Falha ao processar a requisição.", errorMessage));
      }
      loading := false;
    }
  }

  /**
   * From a successful sign-in to the sidebar: the pages read back exactly the
   * owned ids, and the sidebar keeps the first of them active without writing.
   */
  lemma SignInThenSidebar(entries: map<string, string>, json: Json, user: SignInData, message: Option<string>)
    requires RoundTrips(json)
    ensures var e := SessionWrites(entries, LoginOutcomeOf(Answered(Envelope(true, message, Some(user)))), json);
            && ReadOwnedIds(Lookup(e, TenantIdsKey), json) == Parsed(user.tenantIds)
            && (|user.tenantIds| > 0 && user.tenantIds[0] != "" ==>
                  Resolve(user.tenantIds, Lookup(e, ActiveTenantKey)) == Select(user.tenantIds[0], false))
  {
    var o := LoginOutcomeOf(Answered(Envelope(true, message, Some(user))));
    assert o == LoggedIn(user);
    var e := SessionWrites(entries, o, json);
    assert json.stringify(user.tenantIds) != "" && json.parse(json.stringify(user.tenantIds)) == Some(user.tenantIds);
  }
}

=== FILE: sign_up.dfy ===
/** The sign-up page: creates a user account, with no tenant involved, and clears the form on success. */
module SignUp {
  import opened Wrappers
  import opened Gateway
  import opened Browser
  import opened Forms

  const SavedEffects := [Notify(Success, "Usuário criado com sucesso.", "Bem-vindo à Up Brasil!")]

  /** The form after a submission: cleared exactly when the account was created. */
  function FormAfter(form: NewUser, o: Outcome): (r: NewUser)
    ensures o.Saved? ==> forall f :: r.Get(f) == ""
    ensures !o.Saved? ==> r == form
  {
    if o.Saved? then BlankUser else form
  }

  class SignUpPage {
    const window: Window
    var form: NewUser
    var loading: bool

    constructor (window: Window)
      ensures this.window == window && form == BlankUser && !loading
    {
      this.window := window;
      form := BlankUser;
      loading := false;
    }

    method HandleChange(f: UserField, value: string)
      modifies this`form
      ensures form == old(form).With(f, value)
    {
      form := form.With(f, value);
    }

    /** `handleSubmit`: always one `createUser` call with the form as typed, then its outcome. */
    method Submit(reply: Reply<bool>)
      modifies this`form, this`loading, window`effects
      ensures !loading
      ensures form == FormAfter(old(form), Classify(reply, CheckDataText))
      ensures window.effects == old(window.effects) + [Call(CreateUser(old(form)))] +
                                Report(Classify(reply, CheckDataText), SavedEffects, RegisterFailedTitle)
    {
      loading := true;
      window.Emit(Call(CreateUser(form)));
      match reply {
        case Answered(result) =>
          if result.success {
            window.Emit(SavedEffects[0]);
            form := NewUser("", "", "", "", "");
          } else {
            window.Emit(Notify(Warning, RegisterFailedTitle, MessageOr(result.message, CheckDataText)));
          }
        case Thrown(_) =>
          window.Emit(Notify(Error, ConnectionErrorTitle, ConnectionErrorText));
      }
      loading := false;
    }
  }
}

=== FILE: tenant_user_form.dfy ===
/**
 * The tenant-user creation form: the active tenant is read once on mount and
 * every submission is checked against it before the gateway is called.
 */
module TenantUserForm {
  import opened Wrappers
  import opened Gateway
  import opened Browser
  import opened Forms

  const TenantMissingText := "ID do Tenant ativo não encontrado. Por favor, selecione um Tenant."
  const StorageErrorText := "Erro ao acessar o armazenamento local."
  const MissingTenantToast := Notify(Error, "ID do Tenant Ausente", "Não foi possível identificar o Tenant para o cadastro.")
  const BlockedToast := Notify(Error, "Erro de Cadastro", "O ID do Tenant não está disponível.")

  const SavedEffects := [Notify(Success, "Usuário Tenant criado com sucesso.", "Redirecionando para a lista de usuários."),
                         Navigate("/user/tenant")]

  /** The request: the form's fields plus the tenant id. */
  function SaveRequest(form: NewUser, tenantId: string): (req: Request)
    ensures req.CreateTenantUser? && req.tenantId == tenantId
    ensures forall f :: req.user.Get(f) == form.Get(f)
  {
    CreateTenantUser(form, tenantId)
  }

  class TenantUserFormPage {
    const window: Window
    var form: NewUser
    var loading: bool
    var tenantId: Option<string>
    var error: Option<string>

    constructor (window: Window)
      ensures this.window == window && form == BlankUser && !loading && tenantId == None && error == None
    {
      this.window := window;
      form := BlankUser;
      loading := false;
      tenantId := None;
      error := None;
    }

    /** Whether `handleSubmit` stops before calling the gateway. */
    predicate SubmitBlocked()
      reads this
      ensures !SubmitBlocked() ==> tenantId.Some? && tenantId.value != ""
      ensures Present(error) ==> SubmitBlocked()
      ensures Present(tenantId) && !Present(error) ==> !SubmitBlocked()
    {
      !Present(tenantId) || Present(error)
    }

    /** The submit button is disabled while saving or without a tenant id. */
    predicate SubmitDisabled()
      reads this
      ensures loading ==> SubmitDisabled()
      ensures !loading && Present(tenantId) ==> !SubmitDisabled()
      ensures !Present(tenantId) ==> SubmitDisabled()
      ensures !loading && !Present(error) ==> (SubmitDisabled() <==> SubmitBlocked())
    {
      loading || !Present(tenantId)
    }

    /**
     * The mount effect: a stored tenant id is kept for submissions; a missing
     * one, or storage that throws, becomes the page error.  On a fresh page
     * the submit button's rule then agrees with the submission guard.
     */
    method Mount(storageThrows: bool)
      modifies this`tenantId, this`error, window`effects
      ensures var stored := Lookup(window.storage, ActiveTenantKey);
              && (storageThrows ==>
                    tenantId == old(tenantId) && error == Some(StorageErrorText) && window.effects == old(window.effects))
              && (!storageThrows && Present(stored) ==>
                    tenantId == stored && error == old(error) && window.effects == old(window.effects))
              && (!storageThrows && !Present(stored) ==>
                    tenantId == old(tenantId) && error == Some(TenantMissingText) &&
                    window.effects == old(window.effects) + [MissingTenantToast])
      ensures old(tenantId) == None && old(error) == None && !loading ==> (SubmitDisabled() <==> SubmitBlocked())
    {
      if storageThrows {
        error := Some(StorageErrorText);
        return;
      }
      var storedTenantId := window.GetItem(ActiveTenantKey);
      if Present(storedTenantId) {
        tenantId := storedTenantId;
      } else {
        error := Some(TenantMissingText);
        window.Emit(MissingTenantToast);
      }
    }

    method HandleChange(f: UserField, value: string)
      modifies this`form
      ensures form == old(form).With(f, value)
    {
      form := form.With(f, value);
    }

    /**
     * `handleSubmit`: a blocked submission only shows a toast (and leaves
     * `loading` alone); otherwise one creation call and its outcome.
     */
    method Submit(reply: Reply<bool>)
      modifies this`loading, window`effects
      ensures old(SubmitBlocked()) ==> loading == old(loading) && window.effects == old(window.effects) + [BlockedToast]
      ensures !old(SubmitBlocked()) ==>
                && !loading
                && window.effects == old(window.effects) + [Call(SaveRequest(form, tenantId.value))] +
                                     Report(Classify(reply, CheckDataText), SavedEffects, RegisterFailedTitle)
    {
      if !Present(tenantId) || Present(error) {
        window.Emit(BlockedToast);
        return;
      }
      loading := true;
      window.Emit(Call(CreateTenantUser(form, tenantId.value)));
      match reply {
        case Answered(result) =>
          if result.success {
            window.Emit(SavedEffects[0]);
            window.Emit(Navigate("/user/tenant"));
          } else {
            window.Emit(Notify(Warning, RegisterFailedTitle, MessageOr(result.message, CheckDataText)));
          }
        case Thrown(_) =>
          window.Emit(Notify(Error, ConnectionErrorTitle, ConnectionErrorText));
      }
      loading := false;
    }
  }
}

=== FILE: wrappers.dfy ===
/** The Option type used for every nullable or optional value of the client. */
module Wrappers {

  datatype Option<+T> = None | Some(value: T) {

    /** The wrapped value, or `default` when there is none. */
    function GetOr(default: T): T {
      match this
      case Some(v) => v
      case None => default
    }
  }
}
